=== FILE: README.md ===
# Render-layout decisions of the short-video renderer

The renderer turns a request (still images, a narration track, optional
background music, optional watermark text) into a vertical MP4 slideshow.
Almost all of its work is done by an imaging library and a video
compositing library. This project models the small set of pure decisions
in `renderer.py` that control how a render is laid out, and proves what
they guarantee:

- **Duration clamp** (`_safe_duration`): the video lasts as long as the
  narration, clamped to `[MIN_DURATION, MAX_DURATION]`.
- **Centre crop to the target aspect ratio** (`_fit_9x16`): the crop-box
  arithmetic, and the target size that the resize produces.
- **Even segmentation**: the final duration is split equally across the
  images, in the order they were given.
- **Ken Burns zoom**: the resize factor `1 + (zoom - 1) * t / max(0.001, d)`.
- **Input validation and source selection** (`render_video`): a missing
  image list or a missing voice is rejected. Inline base64 wins over URLs.
- **Data-URL header stripping** (`_write_b64`): `s.split(",")[-1]`.
- **Music fitting**: music shorter than the video is looped, otherwise it
  is trimmed to `[0, final duration]`.

Modules:

- `Base` holds `Option`, `Result`, the configuration record and Python
  truthiness.
- `Duration`, `Crop`, `DataUrl`, `Sources` and `Audio` hold one decision
  each: the duration clamp, the crop box, the data-URL header, input
  selection and the music policy.
- `Timeline` holds two: the even segmentation and the Ken Burns zoom curve.
- `Render` composes them into the plan handed to the encoder.
- `Scenarios` works through concrete examples with the default settings.

Environment configuration (`TARGET_WIDTH`, `TARGET_HEIGHT`, `MIN_DURATION`,
`MAX_DURATION`, `MOVIEPY_THREADS`) is the `Config` record, passed in
explicitly. The frame must have positive width and height. What the I/O
layer learns about the assets is a parameter of the planner: the pixel size
of each image, the narration length and the music length.

Idealisations. Python compares `w / h > TARGET_W / TARGET_H` in floating
point and computes `int(h * target_ratio)` and `int(w / target_ratio)`
through a float. The model compares the cross products `w*TH > h*TW` and
takes the exact floor of `h*TW/TH` and `w*TH/TW`. With the default
1080x1920 frame the ratio 0.5625 is exactly representable, so for image
sizes of realistic magnitude the float results agree with the exact ones.
Durations, segment lengths and zoom factors are exact `real`s. So
"the segments sum to the final duration" holds exactly in the model; it
holds only up to rounding for Python floats.

The docstring of `render_video` (renderer.py:47-50) and the request schema's
comments (app.py:24, app.py:27) describe the two image forms, and the two
voice forms, as alternatives ("either ... or"). The code does not reject a
request that supplies both. It uses the inline form and ignores the URLs
(`BothFormsPreferInline`). The model follows the code.

## Model

| member | source | states |
|---|---|---|
| Duration.SafeDuration | renderer.py:43-44 | The duration is never below the minimum. It is within [min, max] whenever min <= max. It equals the narration length when that already lies in the window, and is the nearer bound otherwise. With an empty window (min > max) the minimum wins. |
| Duration.SafeDurationIdempotent | renderer.py:43-44 | Clamping an already clamped duration leaves it unchanged. |
| Duration.SafeDurationMonotone | renderer.py:43-44 | A longer narration never gives a shorter video. |
| Crop.KeptLength | renderer.py:30 | The kept side is the largest whole number k with k*den <= cross, so the cropped ratio never exceeds the target and falls short by less than one pixel. |
| Crop.CentredOffset | renderer.py:31 | The offset `(total - keep) // 2` keeps the span inside the image. The far margin exceeds the near margin by 0 or 1 pixel. |
| Crop.CropBox | renderer.py:26-36 | The box lies inside the image. A wider-than-target image keeps its full height, is narrower than the image, and has the widest width not exceeding the target ratio, centred to within one pixel. Any other image keeps its full width, has the tallest height not exceeding the target ratio, and is centred to within one pixel. |
| Crop.CropIdentityAtTargetRatio | renderer.py:33-36 | An image that already has the target ratio is kept whole: the box is (0, 0, w, h). |
| Crop.CropNonEmptyIff | renderer.py:29-36 | The box has positive area exactly when the kept side comes to at least one pixel: h*TW >= TH for a wide image, w*TH >= TW otherwise. A 1x1 image against the default 1080x1920 frame gives an empty box. |
| Crop.FitToTarget | renderer.py:24-37 | Whatever the input size, the normalised image is exactly TARGET_W x TARGET_H. The box it was cut from is the centred target-ratio box `CropBox` of the source's size, so it lies inside the source and keeps its full width or full height. |
| DataUrl.Push | renderer.py:20 | One step of `str.split` from the right end inwards. A separator in front starts a new empty first part; any other character joins the first part. There is one part afterwards exactly when the character is not the separator and there was one part before. Only then does the last part change. |
| DataUrl.Split | renderer.py:20 | `str.split` on a one-character separator never returns an empty list. The lemmas below state what its parts are. |
| DataUrl.JoinSplit | renderer.py:20 | Round trip: joining the parts of a split with the separator gives back the input. |
| DataUrl.SplitJoin | renderer.py:20 | Round trip the other way: splitting the join of separator-free parts returns those parts. |
| DataUrl.SplitPartsSepFree | renderer.py:20 | No part of a split holds the separator. |
| DataUrl.SplitSingleIff | renderer.py:20 | A split has exactly one part if and only if the input has no separator. |
| DataUrl.SplitNoSep | renderer.py:20 | A string without the separator splits into the one-element list of itself. |
| DataUrl.LastPartIsSuffix | renderer.py:20 | The last part of a split is a suffix of the input. It is the whole input when there is one part, and is preceded by the separator otherwise. |
| DataUrl.StripHeader | renderer.py:20 | `split(",")[-1]` is the longest comma-free suffix. It holds no comma and is a suffix of the input. It equals the input exactly when the input has no comma, and otherwise is preceded by a comma. |
| DataUrl.StripHeaderOfDataUrl | renderer.py:20 | A header ending in a comma is removed whole from a comma-free payload, and a bare payload passes through unchanged. |
| DataUrl.StripHeaderIdempotent | renderer.py:20 | Stripping a second time changes nothing. |
| Sources.Select | renderer.py:54-90 | Empty (or absent) image lists are rejected with "Provide image_urls or image_b64" before the voice is looked at. Otherwise a request with neither voice form truthy is rejected with "Provide voice_url or voice_b64". The request is accepted exactly when both checks pass. An accepted request has at least one image: the inline ones, in order, when that list is non-empty, else the URLs in order. Its voice is the inline payload when truthy, else the non-empty URL. Music and watermark are kept exactly when truthy, and then they are the request's own `music_url` and `watermark_text`. |
| Sources.SelectedImagesUniform | renderer.py:72-83 | The images of an accepted request are all inline or all remote, never a mix. |
| Sources.BothFormsPreferInline | renderer.py:72-90 | Supplying both image forms and both voice forms is accepted, and the inline forms are used. |
| Timeline.Segments | renderer.py:103-108 | One segment per image, in the order given. All segments are equally long, and n of them take exactly the final duration. |
| Timeline.TotalOfUniform | renderer.py:103-109 | k segments of common length d last exactly k*d. |
| Timeline.SegmentBoundaries | renderer.py:103-109 | The first k of n segments end at exactly k/n of the final duration, so consecutive segments neither gap nor overlap. |
| Timeline.SegmentsCoverFinalDuration | renderer.py:103-109 | The segments of n >= 1 images sum exactly to the final duration. |
| Timeline.Divisor | renderer.py:41 | The zoom divisor is at least 0.001, so it is never zero. It is the clip length unless that is at most 0.001. |
| Timeline.KenBurnsScale | renderer.py:40-41 | The scale is 1 at t = 0. It reaches the zoom factor at the clip's end when the clip lasts at least 0.001 s. A zoom of 1 gives a constant scale. |
| Timeline.KenBurnsMonotone | renderer.py:40-41 | For zoom >= 1 the scale never decreases as the clip plays. |
| Timeline.KenBurnsBounded | renderer.py:40-41 | For zoom >= 1 and a clip of at least 0.001 s, the scale stays between 1 and the zoom factor. |
| Audio.FitMusic | renderer.py:112-116 | The music is looped exactly when it is shorter than the final duration, and trimmed to [0, final duration] otherwise. Either way the fitted track lasts exactly the final duration, and a trim never runs past the music's end. |
| Audio.RealModBounds | renderer.py:114 | Position within a looped track, t modulo the music length, lies in [0, music length). |
| Audio.FittedMusicHasNoGap | renderer.py:112-116 | At every instant of [0, final duration) the fitted music plays some instant of the source music: no silent gap. |
| Audio.MixAudio | renderer.py:111-121 | Without music the sound is the narration alone. With music it is the narration, faded in over 0.05 s and out over 0.2 s, over the music at 12% volume fitted to the final duration by `FitMusic`: looped when shorter, otherwise trimmed to `[0, final duration]`. |
| Render.Stills | renderer.py:70-83 | Each selected image, in order, is cut to the centred target-ratio box of its own pixel size (`CropBox`), resized to the target size, and zooms to 1.06. |
| Render.PlanSelected | renderer.py:92-136 | For validated sources the plan's duration is the clamped narration length (`SafeDuration`), so it is within the configured bounds, and equals the narration length when that is in range. Each clip's image is cut to the centred target-ratio box of that image's pixel size and zooms in to 1.06 (Ken Burns). Its clips sum exactly to that duration, in the order of the selected images, all of equal length and all at the target frame size. The sound is `MixAudio` of the music's length (when music was selected) and the duration: the music is fitted to the duration, looped exactly when shorter. The watermark, when present, is the selected text at size 52, opacity 0.8 and margins 40/30 from the right and bottom, and it lasts the whole video. |
| Render.PlanRender | renderer.py:53-146 | A request is rejected exactly when validation rejects it, with the same error. An accepted one is planned from exactly the sources validation selected. Its reported duration is the clamped narration length. It has at least one clip, the clips show the selected images in order, and they sum to that duration. It has music exactly when the music URL is truthy, and a watermark exactly when the watermark text is truthy. |
| Render.RequestWatermarkShown | renderer.py:124-135 | An accepted request with truthy `watermark_text` gets exactly that text as its overlay: size 52, opacity 0.8, margins 40/30, for the whole clamped duration. |
| Scenarios.ShortNarrationScenario | renderer.py:93-136 | Three images (2000x3000, 3000x2000, 1000x1000) with a 45 s narration, no music and watermark "TEST": 50 s video, three 50/3 s clips with crop boxes (156,0,1843,3000), (937,0,2062,2000), (219,0,781,1000), all resized to 1080x1920, voice-only sound, watermark held for 50 s. |
| Scenarios.ExampleCrops | renderer.py:29-32 | The crop boxes of the three example images against a 1080x1920 frame. |
| Scenarios.TallImageScenario | renderer.py:33-36 | A 1080x2400 image keeps its full width and loses 240 rows above and below: box (0, 240, 1080, 2160). |
| Scenarios.LongNarrationScenario | renderer.py:43-44 | A 70 s narration gives a 60 s video under the default bounds. |
| Scenarios.LoopedMusicScenario | renderer.py:112-116 | 10 s of music under a 55 s video is looped. At 37 s the loop is 7 s into the music. |
| Scenarios.EmptyInlineVoiceFallsBackToUrl | renderer.py:85-90 | An empty inline voice counts as absent, so the voice URL is used. |

## Left out

- Downloading (`_dl`, with its 120 s timeout and status check), writing files and the temporary directory: network and file-system I/O.
- Base64 decoding itself: a library call. Only the header stripping before it is modelled.
- Opening, converting, LANCZOS resampling and JPEG saving of images: pixel work inside the imaging library. The model keeps only the crop-box numbers and the output dimensions.
- All video compositing and encoding: clip construction, concatenation, fades as signal processing, the text layer's font fallback, the composite, and the encoder call with 30 fps, libx264/aac, preset "medium" and the thread count. This is media work done by a foreign library. The model records the sound-track and watermark parameters but not their rendering.
- DataUrl.Split: its own contract states only that the list is non-empty. Its other properties are separate lemmas (`JoinSplit`, `SplitJoin`, `SplitPartsSepFree`, `SplitSingleIff`, `LastPartIsSuffix`), which keeps each proof small.
- Audio.SourceTime: describes the compositing library's looping as t modulo the music length; the library's actual implementation is not part of this model.
- Floating-point rounding of the ratio comparison, of `int(...)`, of `final_dur / len(...)` and of `max(0.001, ...)`: the model uses exact integers and reals (see the idealisations above).
- Crop.CropBox: requires positive image width and height. A decoded image never has a zero side; for h = 0 Python would instead fail dividing `w / h`.
- Zero-area crop boxes: for slivers the box is empty (`CropNonEmptyIff`). What the imaging library then does on resize is not modelled.
- The watermark's colour ("white") and its anchoring to the bottom-right corner: fixed styling handed to the text renderer. `Overlay` records only the size, opacity, margins and duration.
- The narration's own length inside the mix: when the narration is shorter than the minimum duration the video is longer than the narration. The sound track is not extended, and the model does not describe the resulting silent tail. When the narration is longer than the maximum duration, the composite is cut at the final duration, so the narration's 0.2 s fade-out is never heard. The model records the fade but not this cut.
- `payload["script"]`, the title and the brand colour: read or carried but unused by any decision. A missing script key (a `KeyError`) is not modelled.
- The music clip's truthiness test (`if music_clip:`): a loaded clip is always truthy, so the model keys the mix on the music URL being truthy.
- app.py (HTTP endpoint, request schema, S3 upload, response streaming): service plumbing outside the renderer.

=== FILE: audio.dfy ===
/** The audio policy: background music, when there is any, is attenuated,
    looped or trimmed to the final duration and mixed under the faded
    narration. */
module Audio {
  import opened Base

  /** How the music is brought to the final duration. */
  datatype MusicPlan =
    | Loop(duration: real)          // repeat from the start until `duration`
    | Trim(start: real, end: real)  // keep only [start, end]
  {
    /** Length of the fitted music. */
    function Length(): real {
      match this
      case Loop(d) => d
      case Trim(a, b) => b - a
    }
  }

  /** Loop music shorter than the final duration, otherwise trim it to
      [0, final duration]. Either way the fitted music lasts exactly the
      final duration, and a trim never reaches past the music's end. */
  function FitMusic(musicDur: real, finalDur: real): (p: MusicPlan)
    ensures p.Loop? <==> musicDur < finalDur
    ensures p.Length() == finalDur
    ensures p.Trim? ==> p.start == 0.0 && p.end <= musicDur
  {
    if musicDur < finalDur then Loop(finalDur) else Trim(0.0, finalDur)
  }

  /** The instant of the source music heard at time t of the fitted track:
      t modulo the music length when looping, t itself when trimming. */
  function SourceTime(p: MusicPlan, musicDur: real, t: real): real
    requires musicDur > 0.0
  {
    match p
    case Loop(_) => t - musicDur * ((t / musicDur).Floor as real)
    case Trim(a, _) => a + t
  }

  /** If t is q times m and f is the floor of q, then t minus f times m
      lies in [0, m). */
  lemma RemainderBounds(t: real, m: real, q: real, f: real)
    requires m > 0.0 && m * q == t && f <= q < f + 1.0
    ensures 0.0 <= t - m * f < m
  {
    var frac := q - f;
    assert t == m * f + m * frac;
    assert 0.0 <= m * frac < m;
  }

  /** t modulo m lies in [0, m). */
  lemma RealModBounds(t: real, m: real)
    requires m > 0.0
    ensures 0.0 <= t - m * ((t / m).Floor as real) < m
  {
    var q := t / m;
    RemainderBounds(t, m, q, q.Floor as real);
  }

  /** Fitted music has no gap: at every instant of [0, final duration) some
      instant of the source music plays. */
  lemma {:induction false} FittedMusicHasNoGap(musicDur: real, finalDur: real, t: real)
    requires musicDur > 0.0 && 0.0 <= t < finalDur
    ensures 0.0 <= SourceTime(FitMusic(musicDur, finalDur), musicDur, t) < musicDur
  {
    if musicDur < finalDur {
      RealModBounds(t, musicDur);
    }
  }

  /** Music gain: 12% of the original level. */
  const MusicVolume: real := 0.12
  /** Narration fade-in and fade-out, in seconds, applied when mixing. */
  const VoiceFadeIn: real := 0.05
  const VoiceFadeOut: real := 0.2

  /** The sound track of the video. */
  datatype SoundTrack =
    | VoiceOnly
    | Mixed(fadeIn: real, fadeOut: real, musicVolume: real, music: MusicPlan)

  /** The narration alone when there is no music; otherwise the narration,
      faded in and out, over the attenuated music fitted to the final
      duration. */
  function MixAudio(musicDur: Option<real>, finalDur: real): (a: SoundTrack)
    ensures a.VoiceOnly? <==> musicDur.None?
    ensures a.Mixed? ==> a.music.Length() == finalDur
    ensures a.Mixed? ==> (a.music.Loop? <==> musicDur.value < finalDur)
    ensures a.Mixed? ==> a.fadeIn == VoiceFadeIn && a.fadeOut == VoiceFadeOut && a.musicVolume == MusicVolume
    ensures a.Mixed? ==> a.music == FitMusic(musicDur.value, finalDur)
  {
    match musicDur
    case None => VoiceOnly
    case Some(m) => Mixed(VoiceFadeIn, VoiceFadeOut, MusicVolume, FitMusic(m, finalDur))
  }
}

=== FILE: base.dfy ===
/** Shared building blocks of the renderer model: optional values, results,
    and the process-wide configuration that renderer.py reads from the
    environment once at import time. */
module Base {

  /** A value that may be missing (a Python `None`). */
  datatype Option<+T> = None | Some(value: T)

  /** The outcome of an operation that can fail with an error of type E. */
  datatype Result<+T, +E> = Ok(value: T) | Err(error: E)

  /** TARGET_WIDTH, TARGET_HEIGHT, MIN_DURATION, MAX_DURATION and
      MOVIEPY_THREADS, passed in explicitly instead of read from the
      environment. */
  datatype Config = Config(targetW: int, targetH: int, minDur: real, maxDur: real, threads: int)
  {
    /** The frame must have a positive area for the aspect ratio to exist. */
    predicate Valid() {
      targetW > 0 && targetH > 0
    }
  }

  /** The defaults used when the environment sets nothing. */
  const DefaultConfig: Config := Config(1080, 1920, 50.0, 60.0, 4)

  /** Python truthiness of an optional string: present and non-empty. */
  predicate Truthy(s: Option<string>) {
    s.Some? && s.value != ""
  }

  /** `payload.get(key) or []` for an optional list. */
  function OrEmpty<T>(xs: Option<seq<T>>): seq<T> {
    if xs.Some? then xs.value else []
  }
}

=== FILE: crop.dfy ===
/** The crop-box arithmetic of the centre crop that brings every image to
    the target aspect ratio before it is resized to the target frame. */
module Crop {

  /** Pixel dimensions of an image. */
  datatype Size = Size(w: int, h: int)

  /** A crop box in the image library's convention: left, upper, right,
      lower, with right and lower exclusive. */
  datatype Box = Box(left: int, top: int, right: int, bottom: int)
  {
    function Width(): int { right - left }
    function Height(): int { bottom - top }
  }

  /** The box lies within a w-by-h image. */
  predicate Inside(b: Box, w: int, h: int) {
    0 <= b.left <= b.right <= w && 0 <= b.top <= b.bottom <= h
  }

  /** `w / h > tw / th` for positive denominators, without division. */
  predicate Wider(w: int, h: int, tw: int, th: int) {
    w * th > h * tw
  }

  /** For d > 0, q == n / d is the unique integer with q*d <= n < (q+1)*d. */
  lemma FloorDivBounds(n: int, d: int)
    requires d > 0
    ensures (n / d) * d <= n < (n / d + 1) * d
  {
    var q, r := n / d, n % d;
    assert n == q * d + r && 0 <= r < d;
    assert (q + 1) * d == q * d + d;
  }

  /** An integer product comparison with a common positive factor. */
  lemma CancelFactor(a: int, b: int, c: int)
    requires c > 0
    ensures a * c < b * c <==> a < b
    ensures a * c <= b * c <==> a <= b
  {
  }

  /** The longest whole side whose ratio to the other side does not exceed
      the target: `int(other * num / den)`, taken as the exact floor of
      `cross / den` where cross is the product `other * num`. */
  function KeptLength(cross: int, den: int): (k: int)
    requires cross >= 0 && den > 0
    ensures k >= 0
    ensures k * den <= cross < (k + 1) * den
  {
    var k := cross / den;
    FloorDivBounds(cross, den);
    k
  }

  /** Offset of a span of length keep centred in a span of length total,
      rounding down: `(total - keep) // 2`. The far margin exceeds the
      near one by at most one. */
  function CentredOffset(total: int, keep: int): (lo: int)
    requires 0 <= keep <= total
    ensures 0 <= lo && lo + keep <= total
    ensures 0 <= (total - (lo + keep)) - lo <= 1
  {
    (total - keep) / 2
  }

  /** The crop box chosen for a w-by-h image and a tw-by-th target.
      A wider image keeps its full height and loses equal margins left and
      right (the right one one pixel wider when the difference is odd); any
      other image keeps its full width and loses equal margins top and
      bottom. The kept side is the widest (or tallest) whole number of
      pixels whose ratio does not exceed the target ratio. */
  function CropBox(w: int, h: int, tw: int, th: int): (b: Box)
    requires w > 0 && h > 0 && tw > 0 && th > 0
    ensures Inside(b, w, h)
    ensures Wider(w, h, tw, th) ==>
      && b.top == 0 && b.bottom == h
      && b.Width() < w
      && b.Width() * th <= h * tw < (b.Width() + 1) * th
      && 0 <= (w - b.right) - b.left <= 1
    ensures !Wider(w, h, tw, th) ==>
      && b.left == 0 && b.right == w
      && b.Height() <= h
      && b.Height() * tw <= w * th < (b.Height() + 1) * tw
      && 0 <= (h - b.bottom) - b.top <= 1
  {
    if w * th > h * tw then
      var newW := KeptLength(h * tw, th);
      CancelFactor(newW, w, th);
      var x := CentredOffset(w, newW);
      Box(x, 0, x + newW, h)
    else
      var newH := KeptLength(w * th, tw);
      CancelFactor(newH, h, tw);
      var y := CentredOffset(h, newH);
      Box(0, y, w, y + newH)
  }

  /** An image that already has the target ratio is kept whole. */
  lemma {:induction false} CropIdentityAtTargetRatio(w: int, h: int, tw: int, th: int)
    requires w > 0 && h > 0 && tw > 0 && th > 0
    requires w * th == h * tw
    ensures CropBox(w, h, tw, th) == Box(0, 0, w, h)
  {
    var b := CropBox(w, h, tw, th);
    CancelFactor(b.Height(), h, tw);
    CancelFactor(h, b.Height() + 1, tw);
  }

  /** The box has a positive area exactly when the kept side is at least
      one pixel: a sliver (say a 1x1 image against a 1080x1920 target)
      yields an empty box. */
  lemma CropNonEmptyIff(w: int, h: int, tw: int, th: int)
    requires w > 0 && h > 0 && tw > 0 && th > 0
    ensures var b := CropBox(w, h, tw, th);
      (b.Width() > 0 && b.Height() > 0) <==>
      (if Wider(w, h, tw, th) then h * tw >= th else w * th >= tw)
  {
    var b := CropBox(w, h, tw, th);
    if Wider(w, h, tw, th) {
      CancelFactor(b.Width(), 1, th);
      CancelFactor(0, b.Width() + 1, th);
    } else {
      CancelFactor(b.Height(), 1, tw);
      CancelFactor(0, b.Height() + 1, tw);
    }
  }

  /** The outcome of normalising one image: the box cut from it and the
      dimensions of the resized result. */
  datatype Fitted = Fitted(crop: Box, size: Size)

  /** Crop to the target ratio, then resize to the target frame. Whatever the
      input dimensions, the result has exactly the target dimensions, and
      the box is the centred target-ratio box, inside the source image. */
  function FitToTarget(src: Size, tw: int, th: int): (r: Fitted)
    requires src.w > 0 && src.h > 0 && tw > 0 && th > 0
    ensures r.size == Size(tw, th)
    ensures Inside(r.crop, src.w, src.h)
    ensures r.crop.Width() == src.w || r.crop.Height() == src.h
    ensures r.crop == CropBox(src.w, src.h, tw, th)
  {
    Fitted(CropBox(src.w, src.h, tw, th), Size(tw, th))
  }
}

=== FILE: dataurl.dfy ===
/** Stripping a data-URL header (`data:image/png;base64,`) from an inline
    payload before it is base64-decoded: `b64_str.split(",")[-1]`. */
module DataUrl {

  /** The parts glued back together with the separator between them. */
  function Join(parts: seq<string>, sep: char): string
    requires |parts| >= 1
    decreases |parts|
  {
    if |parts| == 1 then parts[0] else parts[0] + [sep] + Join(parts[1..], sep)
  }

  /** One step of splitting from the right end inwards: the parts of c
      followed by a string whose parts are rest. A separator starts a new
      empty first part; any other character joins the first part. */
  function Push(c: char, rest: seq<string>, sep: char): (parts: seq<string>)
    requires |rest| >= 1
    ensures |parts| >= 1
    ensures |parts| == 1 <==> c != sep && |rest| == 1
    ensures parts[|parts| - 1] == (if c != sep && |rest| == 1 then [c] + rest[0] else rest[|rest| - 1])
  {
    if c == sep then [""] + rest else [[c] + rest[0]] + rest[1..]
  }

  /** Python's `s.split(sep)` for a one-character separator. It never
      returns an empty list; the properties of its parts are the lemmas
      below. */
  function Split(s: string, sep: char): (parts: seq<string>)
    ensures |parts| >= 1
    decreases |s|
  {
    if |s| == 0 then [""] else Push(s[0], Split(s[1..], sep), sep)
  }

  /** Joining parts whose first part starts with c puts c in front of the
      join with that character removed. */
  lemma JoinCharHead(parts: seq<string>, sep: char)
    requires |parts| >= 1 && |parts[0]| >= 1
    ensures var shorter := [parts[0][1..]] + parts[1..];
      Join(parts, sep) == [parts[0][0]] + Join(shorter, sep)
  {
    var shorter := [parts[0][1..]] + parts[1..];
    assert shorter[1..] == parts[1..];
    assert parts[0] == [parts[0][0]] + parts[0][1..];
  }

  /** A splitting step puts c in front of the joined text. */
  lemma PushJoin(c: char, rest: seq<string>, sep: char)
    requires |rest| >= 1
    ensures Join(Push(c, rest, sep), sep) == [c] + Join(rest, sep)
  {
    var parts := Push(c, rest, sep);
    if c == sep {
      assert parts[1..] == rest;
    } else {
      JoinCharHead(parts, sep);
      assert [parts[0][1..]] + parts[1..] == rest;
    }
  }

  /** Round trip: the parts of a split rejoin to the input. */
  lemma {:induction false} JoinSplit(s: string, sep: char)
    ensures Join(Split(s, sep), sep) == s
    decreases |s|
  {
    if |s| > 0 {
      JoinSplit(s[1..], sep);
      PushJoin(s[0], Split(s[1..], sep), sep);
      assert s == [s[0]] + s[1..];
    }
  }

  /** Every part of the list holds no separator. */
  ghost predicate SepFree(parts: seq<string>, sep: char) {
    forall i :: 0 <= i < |parts| ==> sep !in parts[i]
  }

  /** A splitting step keeps the parts separator-free. */
  lemma PushSepFree(c: char, rest: seq<string>, sep: char)
    requires |rest| >= 1 && SepFree(rest, sep)
    ensures SepFree(Push(c, rest, sep), sep)
  {
    var parts := Push(c, rest, sep);
    if c == sep {
      assert forall i :: 1 <= i < |parts| ==> parts[i] == rest[i - 1];
    } else {
      assert parts[0] == [c] + rest[0];
      assert forall i :: 1 <= i < |parts| ==> parts[i] == rest[i];
    }
  }

  /** No part of a split holds the separator. */
  lemma {:induction false} SplitPartsSepFree(s: string, sep: char)
    ensures SepFree(Split(s, sep), sep)
    decreases |s|
  {
    if |s| > 0 {
      SplitPartsSepFree(s[1..], sep);
      PushSepFree(s[0], Split(s[1..], sep), sep);
    }
  }

  /** A split has a single part exactly when the input has no separator. */
  lemma {:induction false} SplitSingleIff(s: string, sep: char)
    ensures |Split(s, sep)| == 1 <==> sep !in s
    decreases |s|
  {
    if |s| > 0 {
      SplitSingleIff(s[1..], sep);
      assert s == [s[0]] + s[1..];
    }
  }

  /** A string without the separator splits into itself. */
  lemma SplitNoSep(s: string, sep: char)
    requires sep !in s
    ensures Split(s, sep) == [s]
  {
    SplitSingleIff(s, sep);
    JoinSplit(s, sep);
  }

  /** Splitting a non-empty string is one step on its tail's parts. */
  lemma SplitStep(s: string, sep: char)
    requires |s| >= 1
    ensures Split(s, sep) == Push(s[0], Split(s[1..], sep), sep)
  {
  }

  /** The round trip for parts led by an empty part, given it for the
      remaining parts. */
  lemma SplitJoinEmptyHead(parts: seq<string>, sep: char)
    requires |parts| >= 2 && parts[0] == ""
    requires Split(Join(parts[1..], sep), sep) == parts[1..]
    ensures Split(Join(parts, sep), sep) == parts
  {
    var s := Join(parts, sep);
    assert s == [sep] + Join(parts[1..], sep);
    SplitStep(s, sep);
    assert s[1..] == Join(parts[1..], sep);
    assert parts == [""] + parts[1..];
  }

  /** The round trip for parts whose first part starts with a character
      other than the separator, given it for the parts with that character
      removed. */
  lemma SplitJoinCharHead(parts: seq<string>, sep: char)
    requires |parts| >= 1 && |parts[0]| >= 1 && parts[0][0] != sep
    requires Split(Join([parts[0][1..]] + parts[1..], sep), sep) == [parts[0][1..]] + parts[1..]
    ensures Split(Join(parts, sep), sep) == parts
  {
    var shorter := [parts[0][1..]] + parts[1..];
    var s := Join(parts, sep);
    JoinCharHead(parts, sep);
    SplitStep(s, sep);
    assert s[1..] == Join(shorter, sep);
    var p := Push(parts[0][0], shorter, sep);
    assert p == [[parts[0][0]] + shorter[0]] + shorter[1..];
    assert shorter[1..] == parts[1..];
    assert [parts[0][0]] + shorter[0] == parts[0];
    assert p == [parts[0]] + parts[1..];
    assert parts == [parts[0]] + parts[1..];
  }

  /** Round trip the other way: splitting a join of separator-free parts
      gives the parts back. */
  lemma {:induction false} SplitJoin(parts: seq<string>, sep: char)
    requires |parts| >= 1 && SepFree(parts, sep)
    ensures Split(Join(parts, sep), sep) == parts
    decreases |parts|, |parts[0]|
  {
    if |parts| == 1 {
      SplitNoSep(parts[0], sep);
    } else if |parts[0]| == 0 {
      assert SepFree(parts[1..], sep);
      SplitJoin(parts[1..], sep);
      SplitJoinEmptyHead(parts, sep);
    } else {
      var shorter := [parts[0][1..]] + parts[1..];
      assert sep !in parts[0];
      assert parts[0][0] in parts[0];
      assert SepFree(shorter, sep) by {
        assert forall i :: 1 <= i < |shorter| ==> shorter[i] == parts[i];
        assert forall c :: c in shorter[0] ==> c in parts[0];
      }
      SplitJoin(shorter, sep);
      SplitJoinCharHead(parts, sep);
    }
  }

  /** The last of the parts p of s is a suffix of s; it is all of s when
      there is one part, and is preceded by the separator otherwise. */
  ghost predicate LastIsSuffix(s: string, p: seq<string>, sep: char)
    requires |p| >= 1
  {
    var r := p[|p| - 1];
    && |r| <= |s| && r == s[|s| - |r|..]
    && (|p| == 1 ==> r == s)
    && (|p| > 1 ==> |r| < |s| && s[|s| - |r| - 1] == sep)
  }

  /** The last part of a list of several parts, or of one part reached
      through a separator, stays a suffix when a character is put in
      front. */
  lemma SuffixExtends(s: string, rl: string, sep: char)
    requires |s| >= 1 && |rl| <= |s| - 1 && rl == s[1..][|s| - 1 - |rl|..]
    requires |rl| < |s| - 1 ==> s[1..][|s| - 1 - |rl| - 1] == sep
    requires |rl| == |s| - 1 ==> s[0] == sep
    ensures rl == s[|s| - |rl|..] && s[|s| - |rl| - 1] == sep
  {
    var t := s[1..];
    assert s[|s| - |rl|..] == t[|t| - |rl|..];
    if |rl| < |t| {
      assert s[|s| - |rl| - 1] == t[|t| - |rl| - 1];
    }
  }

  /** One splitting step keeps the last part a suffix. */
  lemma PushKeepsLastSuffix(s: string, rest: seq<string>, sep: char)
    requires |s| >= 1 && |rest| >= 1 && LastIsSuffix(s[1..], rest, sep)
    ensures LastIsSuffix(s, Push(s[0], rest, sep), sep)
  {
    var rl := rest[|rest| - 1];
    if s[0] == sep || |rest| > 1 {
      SuffixExtends(s, rl, sep);
    } else {
      assert s == [s[0]] + s[1..];
    }
  }

  /** The last part of a split is a suffix of the input; it is the whole
      input when there is no separator, and otherwise the character just
      before it is the separator. */
  lemma {:induction false} LastPartIsSuffix(s: string, sep: char)
    ensures LastIsSuffix(s, Split(s, sep), sep)
    decreases |s|
  {
    if |s| > 0 {
      LastPartIsSuffix(s[1..], sep);
      PushKeepsLastSuffix(s, Split(s[1..], sep), sep);
    }
  }

  /** `b64_str.split(",")[-1]`: the text after the last comma, or the whole
      string when it has none. The result is the longest comma-free suffix
      of the input: it is a suffix, holds no comma, and is either the whole
      input or preceded by a comma. */
  function StripHeader(s: string): (r: string)
    ensures ',' !in r
    ensures |r| <= |s| && r == s[|s| - |r|..]
    ensures ',' !in s <==> r == s
    ensures |r| < |s| ==> s[|s| - |r| - 1] == ','
  {
    var parts := Split(s, ',');
    LastPartIsSuffix(s, ',');
    SplitPartsSepFree(s, ',');
    SplitSingleIff(s, ',');
    parts[|parts| - 1]
  }

  /** A payload without a header passes through unchanged, and a header
      ending in a comma is removed whole. */
  lemma {:induction false} StripHeaderOfDataUrl(header: string, payload: string)
    requires ',' !in payload
    ensures StripHeader(payload) == payload
    ensures StripHeader(header + "," + payload) == payload
  {
    var s := header + "," + payload;
    var r := StripHeader(s);
    var comma := |s| - |payload| - 1;
    assert s[comma] == ',';
    assert s[comma + 1..] == payload;
  }

  /** Stripping is idempotent: the result has no header left. */
  lemma StripHeaderIdempotent(s: string)
    ensures StripHeader(StripHeader(s)) == StripHeader(s)
  {
  }
}

=== FILE: duration.dfy ===
/** The duration policy: the final video length is the narration length
    clamped to the configured window. */
module Duration {

  /** Python's `max(a, b)`: the first argument unless the second is larger. */
  function PyMax(a: real, b: real): real {
    if b > a then b else a
  }

  /** Python's `min(a, b)`: the first argument unless the second is smaller. */
  function PyMin(a: real, b: real): real {
    if b < a then b else a
  }

  /** `max(MIN_DUR, min(MAX_DUR, audio_dur))`. The lower bound always wins,
      even when the window is empty (minDur > maxDur). */
  function SafeDuration(audioDur: real, minDur: real, maxDur: real): (d: real)
    ensures d >= minDur
    ensures minDur <= maxDur ==> d <= maxDur
    ensures minDur <= audioDur <= maxDur ==> d == audioDur
    ensures audioDur < minDur ==> d == minDur
    ensures minDur <= maxDur < audioDur ==> d == maxDur
    ensures maxDur < minDur ==> d == minDur
  {
    PyMax(minDur, PyMin(maxDur, audioDur))
  }

  /** Clamping an already clamped duration changes nothing. */
  lemma SafeDurationIdempotent(audioDur: real, minDur: real, maxDur: real)
    ensures SafeDuration(SafeDuration(audioDur, minDur, maxDur), minDur, maxDur)
         == SafeDuration(audioDur, minDur, maxDur)
  {
  }

  /** A longer narration never yields a shorter video. */
  lemma SafeDurationMonotone(a: real, b: real, minDur: real, maxDur: real)
    requires a <= b
    ensures SafeDuration(a, minDur, maxDur) <= SafeDuration(b, minDur, maxDur)
  {
  }
}

=== FILE: render.dfy ===
/** The decisions of one render, composed: validate and select the sources,
    clamp the duration, normalise every image, lay the images out on the
    timeline, fit the music and place the watermark. Downloading, decoding,
    probing and encoding are outside the model: what they learn (each
    image's pixel size, each audio file's length) arrives as parameters. */
module Render {
  import opened Base
  import opened Sources
  import opened Crop
  import opened Duration
  import opened Timeline
  import opened Audio

  /** One still of the slideshow: where it came from, how it was cropped
      and resized, and how far it zooms in. */
  datatype Still = Still(source: AssetSource, fit: Fitted, zoom: real)

  /** The watermark text layer. */
  datatype Overlay = Overlay(
    text: string, fontSize: int, opacity: real,
    marginRight: int, marginBottom: int, duration: real)

  const WatermarkFontSize: int := 52
  const WatermarkOpacity: real := 0.8
  const WatermarkMarginRight: int := 40
  const WatermarkMarginBottom: int := 30

  /** Everything handed to the encoder. */
  datatype RenderPlan = RenderPlan(
    finalDur: real,
    frame: Size,
    clips: seq<Segment<Still>>,
    sound: SoundTrack,
    watermark: Option<Overlay>)

  /** Normalise each selected image, in order: each is cut to the centred
      target-ratio box of its own pixel size and resized to the target. */
  function Stills(images: seq<AssetSource>, imageSize: AssetSource -> Size, tw: int, th: int): (r: seq<Still>)
    requires tw > 0 && th > 0
    requires forall a :: imageSize(a).w > 0 && imageSize(a).h > 0
    ensures |r| == |images|
    ensures forall i :: 0 <= i < |r| ==>
      && r[i].source == images[i]
      && r[i].fit.size == Size(tw, th)
      && r[i].fit.crop == CropBox(imageSize(images[i]).w, imageSize(images[i]).h, tw, th)
      && r[i].zoom == DefaultZoom
  {
    seq(|images|, i requires 0 <= i < |images| =>
      Still(images[i], FitToTarget(imageSize(images[i]), tw, th), DefaultZoom))
  }

  /** The watermark layer, held for the whole video, when there is text. */
  function WatermarkLayer(text: Option<string>, finalDur: real): (o: Option<Overlay>)
    ensures o.Some? <==> text.Some?
    ensures o.Some? ==> o.value.text == text.value && o.value.duration == finalDur
  {
    match text
    case None => None
    case Some(s) => Some(Overlay(s, WatermarkFontSize, WatermarkOpacity,
                                 WatermarkMarginRight, WatermarkMarginBottom, finalDur))
  }

  /** Plan the render of validated sources. The plan's duration is the
      clamped narration length, its clips cover exactly that duration in
      the order the images were given, each image is cut to its centred
      target-ratio box and resized to the target frame, the
      music (if any) is fitted to the duration, and the watermark (if any)
      lasts the whole video. */
  function PlanSelected(cfg: Config, sel: Selection, imageSize: AssetSource -> Size, voiceDur: real, musicDur: real)
    : (plan: RenderPlan)
    requires cfg.Valid() && |sel.images| >= 1
    requires forall a :: imageSize(a).w > 0 && imageSize(a).h > 0
    ensures plan.finalDur == SafeDuration(voiceDur, cfg.minDur, cfg.maxDur)
    ensures cfg.minDur <= plan.finalDur
    ensures cfg.minDur <= cfg.maxDur ==> plan.finalDur <= cfg.maxDur
    ensures cfg.minDur <= voiceDur <= cfg.maxDur ==> plan.finalDur == voiceDur
    ensures Total(plan.clips) == plan.finalDur
    ensures |plan.clips| == |sel.images|
    ensures plan.frame == Size(cfg.targetW, cfg.targetH)
    ensures forall i :: 0 <= i < |plan.clips| ==> plan.clips[i].image.source == sel.images[i]
    ensures forall i :: 0 <= i < |plan.clips| ==> plan.clips[i].image.zoom == DefaultZoom
    ensures forall i :: 0 <= i < |plan.clips| ==> plan.clips[i].image.fit.size == plan.frame
    ensures forall i :: 0 <= i < |plan.clips| ==>
      plan.clips[i].image.fit.crop == CropBox(imageSize(sel.images[i]).w, imageSize(sel.images[i]).h, cfg.targetW, cfg.targetH)
    ensures forall i :: 0 <= i < |plan.clips| ==> plan.clips[i].duration == plan.clips[0].duration
    ensures plan.sound.VoiceOnly? <==> sel.music.None?
    ensures plan.sound.Mixed? ==>
      && plan.sound.music.Length() == plan.finalDur
      && (plan.sound.music.Loop? <==> musicDur < plan.finalDur)
    ensures plan.watermark.Some? <==> sel.watermark.Some?
    ensures plan.watermark.Some? ==> plan.watermark.value.duration == plan.finalDur
    ensures plan.sound == MixAudio(if sel.music.Some? then Some(musicDur) else None, plan.finalDur)
    ensures plan.watermark.Some? ==>
      plan.watermark.value == Overlay(sel.watermark.value, WatermarkFontSize, WatermarkOpacity,
                                      WatermarkMarginRight, WatermarkMarginBottom, plan.finalDur)
  {
    var finalDur := SafeDuration(voiceDur, cfg.minDur, cfg.maxDur);
    var stills := Stills(sel.images, imageSize, cfg.targetW, cfg.targetH);
    SegmentsCoverFinalDuration(stills, finalDur);
    var clips := Segments(stills, finalDur);
    assert forall i :: 0 <= i < |clips| ==> clips[i].image == stills[i];
    var music := if sel.music.Some? then Some(musicDur) else None;
    RenderPlan(finalDur, Size(cfg.targetW, cfg.targetH), clips,
               MixAudio(music, finalDur), WatermarkLayer(sel.watermark, finalDur))
  }

  /** Plan one render: a request without images or without a narration is
      rejected with the corresponding error before anything is planned;
      any other request is planned from the sources it selects, and the
      duration it reports is the clamped narration length. */
  function PlanRender(cfg: Config, p: Payload, imageSize: AssetSource -> Size, voiceDur: real, musicDur: real)
    : (r: Result<RenderPlan, InputError>)
    requires cfg.Valid()
    requires forall a :: imageSize(a).w > 0 && imageSize(a).h > 0
    ensures r.Err? <==> Select(p).Err?
    ensures r.Err? ==> r.error == Select(p).error
    ensures r.Ok? ==> r.value == PlanSelected(cfg, Select(p).value, imageSize, voiceDur, musicDur)
    ensures r.Ok? ==> r.value.finalDur == SafeDuration(voiceDur, cfg.minDur, cfg.maxDur)
    ensures r.Ok? ==> |r.value.clips| >= 1 && Total(r.value.clips) == r.value.finalDur
    ensures r.Ok? ==> forall i :: 0 <= i < |r.value.clips| ==> r.value.clips[i].image.source == Select(p).value.images[i]
    ensures r.Ok? ==> (r.value.sound.VoiceOnly? <==> !Truthy(p.musicUrl))
    ensures r.Ok? ==> (r.value.watermark.Some? <==> Truthy(p.watermarkText))
  {
    match Select(p)
    case Err(e) => Err(e)
    case Ok(sel) => Ok(PlanSelected(cfg, sel, imageSize, voiceDur, musicDur))
  }

  /** The watermark of an accepted request is the request's own text, drawn
      with the fixed style for the whole video. */
  lemma RequestWatermarkShown(cfg: Config, p: Payload, imageSize: AssetSource -> Size, voiceDur: real, musicDur: real)
    requires cfg.Valid()
    requires forall a :: imageSize(a).w > 0 && imageSize(a).h > 0
    requires Select(p).Ok? && Truthy(p.watermarkText)
    ensures PlanRender(cfg, p, imageSize, voiceDur, musicDur).value.watermark
      == Some(Overlay(p.watermarkText.value, WatermarkFontSize, WatermarkOpacity,
                      WatermarkMarginRight, WatermarkMarginBottom,
                      SafeDuration(voiceDur, cfg.minDur, cfg.maxDur)))
  {
  }
}

=== FILE: scenarios.dfy ===
/** Worked examples with the default configuration (1080x1920 frame,
    50 to 60 seconds). */
module Scenarios {
  import opened Base
  import opened Sources
  import opened Crop
  import opened Duration
  import opened Timeline
  import opened Audio
  import opened Render

  /** Pixel sizes of three inline images: a portrait, a landscape and a
      square one. */
  function ExampleSizes(a: AssetSource): (s: Size)
    ensures s.w > 0 && s.h > 0
  {
    if a == Inline("portrait") then Size(2000, 3000)
    else if a == Inline("landscape") then Size(3000, 2000)
    else Size(1000, 1000)
  }

  /** Three images, a 45-second narration, no music and a watermark: the
      video is stretched to 50 seconds, each image shown for a third of
      it, every image centre-cropped to 9:16 and resized to 1080x1920, and
      the watermark held for all 50 seconds. */
  lemma ShortNarrationScenario()
    ensures var p := Payload(None, Some(["portrait", "landscape", "square"]),
                             None, Some("voice"), None, Some("TEST"));
      var r := PlanRender(DefaultConfig, p, ExampleSizes, 45.0, 0.0);
      && r.Ok?
      && r.value.finalDur == 50.0
      && |r.value.clips| == 3
      && (forall i :: 0 <= i < 3 ==> r.value.clips[i].duration == 50.0 / 3.0)
      && r.value.clips[0].image.fit == Fitted(Box(156, 0, 1843, 3000), Size(1080, 1920))
      && r.value.clips[1].image.fit == Fitted(Box(937, 0, 2062, 2000), Size(1080, 1920))
      && r.value.clips[2].image.fit == Fitted(Box(219, 0, 781, 1000), Size(1080, 1920))
      && r.value.sound == VoiceOnly
      && r.value.watermark == Some(Overlay("TEST", 52, 0.8, 40, 30, 50.0))
  {
    var names := ["portrait", "landscape", "square"];
    var p := Payload(None, Some(names), None, Some("voice"), None, Some("TEST"));
    var images := [Inline("portrait"), Inline("landscape"), Inline("square")];
    assert AllInline(names) == images;
    var sel := Selection(images, Inline("voice"), None, Some("TEST"));
    assert Select(p) == Ok(sel);
    assert ExampleSizes(images[0]) == Size(2000, 3000);
    assert ExampleSizes(images[1]) == Size(3000, 2000);
    assert ExampleSizes(images[2]) == Size(1000, 1000);
    ExampleCrops();
    var plan := PlanSelected(DefaultConfig, sel, ExampleSizes, 45.0, 0.0);
    assert plan.finalDur == 50.0;
    var d := plan.clips[0].duration;
    TotalOfUniform(plan.clips, d);
    assert d == 50.0 / 3.0;
    assert plan.sound == VoiceOnly;
    assert plan.watermark == Some(Overlay("TEST", 52, 0.8, 40, 30, 50.0));
    assert PlanRender(DefaultConfig, p, ExampleSizes, 45.0, 0.0) == Ok(plan);
  }

  /** The crop boxes of the three example images. */
  lemma ExampleCrops()
    ensures CropBox(2000, 3000, 1080, 1920) == Box(156, 0, 1843, 3000)
    ensures CropBox(3000, 2000, 1080, 1920) == Box(937, 0, 2062, 2000)
    ensures CropBox(1000, 1000, 1080, 1920) == Box(219, 0, 781, 1000)
  {
  }

  /** A 70-second narration is cut to the 60-second maximum. */
  lemma LongNarrationScenario()
    ensures SafeDuration(70.0, DefaultConfig.minDur, DefaultConfig.maxDur) == 60.0
  {
  }

  /** Ten seconds of music under a 55-second video is looped five and a
      half times; at 37 seconds the loop is 7 seconds into the music. */
  lemma LoopedMusicScenario()
    ensures FitMusic(10.0, 55.0) == Loop(55.0)
    ensures SourceTime(FitMusic(10.0, 55.0), 10.0, 37.0) == 7.0
  {
  }

  /** A tall image keeps its full width: 1080x2400 loses 240 rows above
      and 240 below. */
  lemma TallImageScenario()
    ensures CropBox(1080, 2400, 1080, 1920) == Box(0, 240, 1080, 2160)
  {
  }

  /** An empty voice payload counts as absent, so the voice URL is used. */
  lemma EmptyInlineVoiceFallsBackToUrl()
    ensures Select(Payload(Some(["u"]), None, Some("v.mp3"), Some(""), None, None))
         == Ok(Selection([Remote("u")], Remote("v.mp3"), None, None))
  {
    assert AllRemote(["u"]) == [Remote("u")];
  }
}

=== FILE: sources.dfy ===
/** Validation of a render request and the choice between remote URLs and
    inline base64 payloads for the images and the narration. */
module Sources {
  import opened Base

  /** The fields of a render request that the renderer reads. Absent fields
      are `None`; the script, title and brand colour are carried but play no
      part in the decisions modelled here. */
  datatype Payload = Payload(
    imageUrls: Option<seq<string>>,
    imageB64: Option<seq<string>>,
    voiceUrl: Option<string>,
    voiceB64: Option<string>,
    musicUrl: Option<string>,
    watermarkText: Option<string>)

  /** Where one asset comes from: a URL to download or an inline payload. */
  datatype AssetSource = Remote(url: string) | Inline(b64: string)

  /** The sources a render will use, after validation. */
  datatype Selection = Selection(
    images: seq<AssetSource>,
    voice: AssetSource,
    music: Option<string>,
    watermark: Option<string>)

  /** The two ways a request can be rejected before any work is done. */
  datatype InputError = MissingImages | MissingVoice
  {
    /** The message of the `ValueError` raised. */
    function Message(): string {
      match this
      case MissingImages => "Provide image_urls or image_b64"
      case MissingVoice => "Provide voice_url or voice_b64"
    }
  }

  /** Each entry of xs, taken as a URL. */
  function AllRemote(xs: seq<string>): (r: seq<AssetSource>)
    ensures |r| == |xs|
    ensures forall i :: 0 <= i < |r| ==> r[i] == Remote(xs[i])
  {
    seq(|xs|, i requires 0 <= i < |xs| => Remote(xs[i]))
  }

  /** Each entry of xs, taken as an inline payload. */
  function AllInline(xs: seq<string>): (r: seq<AssetSource>)
    ensures |r| == |xs|
    ensures forall i :: 0 <= i < |r| ==> r[i] == Inline(xs[i])
  {
    seq(|xs|, i requires 0 <= i < |xs| => Inline(xs[i]))
  }

  /** Python truthiness of an optional value, kept as an optional: a falsy
      music URL or watermark is as good as none. */
  function Present(s: Option<string>): (r: Option<string>)
    ensures r.Some? <==> Truthy(s)
    ensures r.Some? ==> r == s
  {
    if Truthy(s) then s else None
  }

  /** Validate a request and choose its sources. The image check comes
      first. Inline images win over image URLs when both lists are given,
      and an inline voice wins over a voice URL; an empty string counts as
      absent. */
  function Select(p: Payload): (r: Result<Selection, InputError>)
    ensures OrEmpty(p.imageUrls) == [] && OrEmpty(p.imageB64) == [] ==> r == Err(MissingImages)
    ensures (OrEmpty(p.imageUrls) != [] || OrEmpty(p.imageB64) != []) && !Truthy(p.voiceUrl) && !Truthy(p.voiceB64)
      ==> r == Err(MissingVoice)
    ensures r.Ok? <==>
      (OrEmpty(p.imageUrls) != [] || OrEmpty(p.imageB64) != [])
      && (Truthy(p.voiceUrl) || Truthy(p.voiceB64))
    ensures r.Ok? ==> |r.value.images| >= 1
    ensures r.Ok? && OrEmpty(p.imageB64) != [] ==>
      |r.value.images| == |OrEmpty(p.imageB64)|
      && forall i :: 0 <= i < |r.value.images| ==> r.value.images[i] == Inline(OrEmpty(p.imageB64)[i])
    ensures r.Ok? && OrEmpty(p.imageB64) == [] ==>
      |r.value.images| == |OrEmpty(p.imageUrls)|
      && forall i :: 0 <= i < |r.value.images| ==> r.value.images[i] == Remote(OrEmpty(p.imageUrls)[i])
    ensures r.Ok? && Truthy(p.voiceB64) ==> r.value.voice == Inline(p.voiceB64.value)
    ensures r.Ok? && !Truthy(p.voiceB64) ==> r.value.voice == Remote(p.voiceUrl.value) && p.voiceUrl.value != ""
    ensures r.Ok? ==> (r.value.music.Some? <==> Truthy(p.musicUrl))
    ensures r.Ok? ==> (r.value.watermark.Some? <==> Truthy(p.watermarkText))
    ensures r.Ok? && Truthy(p.musicUrl) ==> r.value.music == p.musicUrl
    ensures r.Ok? && Truthy(p.watermarkText) ==> r.value.watermark == p.watermarkText
  {
    var urls := OrEmpty(p.imageUrls);
    var inline := OrEmpty(p.imageB64);
    if urls == [] && inline == [] then Err(MissingImages)
    else if !Truthy(p.voiceUrl) && !Truthy(p.voiceB64) then Err(MissingVoice)
    else
      var images := if inline != [] then AllInline(inline) else AllRemote(urls);
      var voice := if Truthy(p.voiceB64) then Inline(p.voiceB64.value) else Remote(p.voiceUrl.value);
      Ok(Selection(images, voice, Present(p.musicUrl), Present(p.watermarkText)))
  }

  /** The images of an accepted request are all of one kind: all inline or
      all remote. */
  lemma SelectedImagesUniform(p: Payload)
    requires Select(p).Ok?
    ensures var imgs := Select(p).value.images;
      (forall i :: 0 <= i < |imgs| ==> imgs[i].Inline?) ||
      (forall i :: 0 <= i < |imgs| ==> imgs[i].Remote?)
  {
  }

  /** Supplying both forms is not an error: the inline forms are used and
      the URLs are ignored. */
  lemma BothFormsPreferInline(p: Payload)
    requires OrEmpty(p.imageUrls) != [] && OrEmpty(p.imageB64) != []
    requires Truthy(p.voiceUrl) && Truthy(p.voiceB64)
    ensures Select(p).Ok?
    ensures Select(p).value.images == AllInline(p.imageB64.value)
    ensures Select(p).value.voice == Inline(p.voiceB64.value)
  {
  }
}

=== FILE: timeline.dfy ===
/** The visual timeline: the final duration split evenly across the images
    in the order given, each image slowly zooming in over its own segment. */
module Timeline {

  /** One image shown for a stretch of time. */
  datatype Segment<T> = Segment(image: T, duration: real)

  /** Total length of consecutive segments. */
  function Total<T>(segs: seq<Segment<T>>): real
    decreases |segs|
  {
    if |segs| == 0 then 0.0 else Total(segs[..|segs| - 1]) + segs[|segs| - 1].duration
  }

  /** `seg = final_dur / len(img_paths)`, then one clip of that length per
      image in order. Every segment has the same length, and n of them
      take exactly the final duration. */
  function Segments<T>(images: seq<T>, finalDur: real): (segs: seq<Segment<T>>)
    requires |images| >= 1
    ensures |segs| == |images|
    ensures forall i :: 0 <= i < |segs| ==> segs[i].image == images[i]
    ensures forall i :: 0 <= i < |segs| ==> segs[i].duration == segs[0].duration
    ensures forall i :: 0 <= i < |segs| ==> segs[i].duration * (|images| as real) == finalDur
  {
    var seg := finalDur / (|images| as real);
    seq(|images|, i requires 0 <= i < |images| => Segment(images[i], seg))
  }

  /** k segments of a common length d last k times d. */
  lemma {:induction false} TotalOfUniform<T>(segs: seq<Segment<T>>, d: real)
    requires forall i :: 0 <= i < |segs| ==> segs[i].duration == d
    ensures Total(segs) == (|segs| as real) * d
    decreases |segs|
  {
    if |segs| > 0 {
      TotalOfUniform(segs[..|segs| - 1], d);
    }
  }

  /** The segments leave no gap and no overlap: the first k of them end at
      k/n of the final duration, so all n end exactly at the final
      duration. */
  lemma {:induction false} SegmentBoundaries<T>(images: seq<T>, finalDur: real, k: nat)
    requires |images| >= 1 && k <= |images|
    ensures Total(Segments(images, finalDur)[..k]) * (|images| as real) == (k as real) * finalDur
  {
    var segs := Segments(images, finalDur);
    var d := finalDur / (|images| as real);
    TotalOfUniform(segs[..k], d);
  }

  /** Property of the whole timeline: the segments sum to the final
      duration. */
  lemma {:induction false} SegmentsCoverFinalDuration<T>(images: seq<T>, finalDur: real)
    requires |images| >= 1
    ensures Total(Segments(images, finalDur)) == finalDur
  {
    var segs := Segments(images, finalDur);
    SegmentBoundaries(images, finalDur, |images|);
    assert segs[..|images|] == segs;
  }

  /** The zoom factor each image reaches at the end of its segment. */
  const DefaultZoom: real := 1.06

  /** `max(0.001, clip.duration)`: the clip length, floored at a
      millisecond so that it can divide. */
  function Divisor(clipDur: real): (r: real)
    ensures r >= 0.001
    ensures r == clipDur || (r == 0.001 && clipDur <= 0.001)
  {
    if clipDur > 0.001 then clipDur else 0.001
  }

  /** The Ken Burns resize factor at time t within a clip:
      `1 + (zoom - 1) * (t / max(0.001, clip.duration))`. It starts at 1 and
      reaches the zoom factor at the clip's end. */
  function KenBurnsScale(zoom: real, clipDur: real, t: real): (s: real)
    ensures t == 0.0 ==> s == 1.0
    ensures clipDur >= 0.001 && t == clipDur ==> s == zoom
    ensures zoom == 1.0 ==> s == 1.0
  {
    1.0 + (zoom - 1.0) * (t / Divisor(clipDur))
  }

  /** For a zoom-in the scale never shrinks as the clip plays. */
  lemma {:induction false} KenBurnsMonotone(zoom: real, clipDur: real, t1: real, t2: real)
    requires zoom >= 1.0 && t1 <= t2
    ensures KenBurnsScale(zoom, clipDur, t1) <= KenBurnsScale(zoom, clipDur, t2)
  {
    var d := Divisor(clipDur);
    assert t1 / d <= t2 / d;
    assert (zoom - 1.0) * (t1 / d) <= (zoom - 1.0) * (t2 / d);
  }

  /** Within a clip of at least a millisecond, a zoom-in stays between 1
      and the zoom factor. */
  lemma {:induction false} KenBurnsBounded(zoom: real, clipDur: real, t: real)
    requires zoom >= 1.0 && clipDur >= 0.001 && 0.0 <= t <= clipDur
    ensures 1.0 <= KenBurnsScale(zoom, clipDur, t) <= zoom
  {
    KenBurnsMonotone(zoom, clipDur, 0.0, t);
    KenBurnsMonotone(zoom, clipDur, t, clipDur);
  }
}
